=== FILE: README.md ===
# Timeline ranges and playhead rules of the Olive video editor, in Dafny

This project models two small, sequential pieces of Olive's timeline logic and
proves properties of them.

- **`TimeRange`** (`timerange.dfy`, module `TimeRanges`) stores an in-point and an
  out-point. The constructor and every setter end by normalising, which swaps
  the two points when the out-point is earlier. Each operation is proved to
  re-establish `in <= out` and to keep exactly the points it was given, no
  more and no fewer. Olive's `rational` is modelled as an exact `real`,
  because only its ordering is used.
- **Playhead rules of a time-based view** (`cuts.dfy` and `playhead.dfy`, modules
  `Cuts` and `Playhead`). These cover previous cut, next cut, previous and next
  frame, go to start and go to end.
  - A track is modelled as its blocks in timeline order, each already converted
    to in/out timestamps, plus the timestamp of its length.
  - Timestamps are 64-bit signed integers (`Base.Int64`).
  - Each rule returns the timestamp the view sets the playhead to. It returns
    `None` when the view sets none: no connected node, the playhead already
    at 0 for "previous cut", or no cut after the playhead for "next cut".
    "Go to start" and "previous frame" at 0 still set the playhead, to 0.
  - The per-track and per-node scans appear twice. As functions, they state
    which block the scan settles on. As methods, their loops follow Olive's C++
    loops block by block and are proved to compute the functions.
  - Two lemmas describe the cuts on a well-formed timeline.
    - When each track's block ends are in order, "previous cut" is the latest
      block end before the playhead, or 0 when that end is negative or there is
      none.
    - When each track's block starts are in order and no block starts after
      its track's end, "next cut" is the earliest block start or track end
      after the playhead.
    - Without the second condition, a block can start after the end of its
      track, and "next cut" then passes over the earlier track end.
- **Work-area editing** (`workarea.dfy`, module `WorkAreas`). This covers setting,
  resetting and clearing the in/out points of a sequence's work area. Each
  operation returns the work area that its undo command installs, or `None`
  when no command is pushed. The reset values are parameters (`ResetPoints`).

`base.dfy` (module `Base`) holds the shared `Option` type, the `Int64` range
and integer `Max`/`Min`.

Two behaviours of Olive's C++ are kept as written:
- When the playhead is negative, "previous cut" moves it to 0, which is later
  than the playhead. The contract only promises a target before the playhead
  when the playhead is positive.
- In "next cut", a cut exactly at `INT64_MAX` cannot be told apart from the
  "no cut" sentinel, so it leaves the playhead unchanged.

## Model

| member | source | states |
|---|---|---|
| TimeRanges.Normalize | app/common/timerange.cpp:43-51 | the result has in <= out, holds the same two points as the input, and is the input itself when it was already ordered |
| TimeRanges.Make | app/common/timerange.cpp:7-12 | the two-argument constructor yields an ordered range holding exactly its two arguments: in is the smaller, out the larger |
| TimeRanges.SetIn | app/common/timerange.cpp:24-28 | set_in gives the ordered pair of the new point and the old out-point; when the new point is not after the out-point, in becomes it and out is unchanged |
| TimeRanges.SetOut | app/common/timerange.cpp:30-34 | set_out gives the ordered pair of the old in-point and the new point; when the new point is not before the in-point, out becomes it and in is unchanged |
| TimeRanges.SetRange | app/common/timerange.cpp:36-42 | set_range gives the same range as constructing from the same two points, independent of the old range |
| TimeRanges.SortedPairUnique | app/common/timerange.cpp:43-51 | two ordered ranges holding the same two points are equal, so normalising determines the range |
| TimeRanges.NormalizeIdempotent | app/common/timerange.cpp:46 | normalising an already normalised range changes nothing |
| TimeRanges.MakeSymmetric | app/common/timerange.cpp:7-12 | the constructor's result does not depend on the order of its arguments |
| TimeRanges.SetUnchangedPoint | app/common/timerange.cpp:24-34 | setting a point of an ordered range to its current value leaves the range unchanged |
| TimeRanges.SettersAreConstructors | app/common/timerange.cpp:24-34 | set_in(x) equals constructing from x and the old out-point; set_out(x) equals constructing from the old in-point and x |
| Cuts.EndingBefore | app/widget/timebased/timebased.cpp:203-211 | the per-track scan visits exactly the leading blocks that end before the playhead and stops at the first block ending at or after it |
| Cuts.TrackPrevCut | app/widget/timebased/timebased.cpp:201-211 | a track's previous cut is 0 when there are no blocks or the first block ends at or after the playhead; otherwise it is the out-point of the last block in the leading run of blocks that end strictly before the playhead |
| Cuts.PrevCut | app/widget/timebased/timebased.cpp:198-216 | the previous cut is at least 0 and at least every track's cut, and it is 0 or some track's cut: the maximum over tracks with default 0 |
| Cuts.FirstStartingAfter | app/widget/timebased/timebased.cpp:234-241 | the next-cut scan stops at the first block starting after the playhead; every earlier block starts at or before it |
| Cuts.TrackNextCut | app/widget/timebased/timebased.cpp:228-241 | when some block starts after the playhead, a track's next cut is the in-point of the first such block; otherwise it is the track length if that is after the playhead, and the INT64_MAX sentinel if not |
| Cuts.NextCut | app/widget/timebased/timebased.cpp:225-244 | the next cut is at most every track's cut and is either the sentinel or some track's cut: the minimum over tracks with INT64_MAX as the starting value |
| Cuts.ScanTrackPrevCut | app/widget/timebased/timebased.cpp:201-211 | the block loop with its early break computes the track's previous cut |
| Cuts.ScanPrevCut | app/widget/timebased/timebased.cpp:198-214 | the track loop with the running qMax computes the previous cut over all tracks |
| Cuts.ScanTrackNextCut | app/widget/timebased/timebased.cpp:228-241 | the length fallback followed by the block loop with its break computes the track's next cut |
| Cuts.ScanNextCut | app/widget/timebased/timebased.cpp:225-244 | the track loop with the running qMin computes the next cut over all tracks |
| Cuts.TrackPrevCutIsLatestEnd | app/widget/timebased/timebased.cpp:203-211 | on a track with ordered out-points, stopping early loses nothing: every out-point before the playhead is at most the track's cut, and the cut is 0 when none is before it |
| Cuts.PrevCutIsLatestEnd | app/widget/timebased/timebased.cpp:198-216 | on tracks whose out-points are ordered, the previous cut is at least every block out-point before the playhead on any track, and it is 0 or one of those out-points |
| Cuts.TrackNextCutIsEarliestStart | app/widget/timebased/timebased.cpp:228-241 | on a track with ordered in-points inside its length, the track's cut is at most every in-point after the playhead and at most the length when that is after it |
| Cuts.NextCutIsEarliestStart | app/widget/timebased/timebased.cpp:225-244 | on tracks whose in-points are ordered and all lie within the track's length, the next cut is at most every block in-point and every track length after the playhead |
| Playhead.GoToPrevCut | app/widget/timebased/timebased.cpp:188-217 | no move without a node or at timestamp 0; otherwise the target is at least 0, before a positive playhead, at least every track's cut and equal to 0 or to one of them |
| Playhead.GoToNextCut | app/widget/timebased/timebased.cpp:219-249 | no move without a node, or exactly when every track reports the sentinel; otherwise the target is after the playhead, below INT64_MAX, and the minimum of the tracks' cuts |
| Playhead.ScanGoToPrevCut | app/widget/timebased/timebased.cpp:188-217 | the early returns and loops of GoToPrevCut give the playhead the rule describes |
| Playhead.ScanGoToNextCut | app/widget/timebased/timebased.cpp:219-249 | the loops and the final sentinel test of GoToNextCut give the playhead the rule describes |
| Playhead.GoToPrevCutIsLatestEnd | app/widget/timebased/timebased.cpp:188-217 | on a well-formed timeline, "previous cut" never skips a block end lying before the playhead |
| Playhead.GoToNextCutIsEarliestStart | app/widget/timebased/timebased.cpp:219-249 | on a well-formed timeline, "next cut" never skips a block start or track end lying after the playhead |
| Playhead.GoToStart | app/widget/timebased/timebased.cpp:251-256 | with a connected node the playhead goes to 0; without one nothing happens |
| Playhead.GoToEnd | app/widget/timebased/timebased.cpp:272-277 | with a connected node the playhead goes to the node's length; without one nothing happens |
| Playhead.PrevFrame | app/widget/timebased/timebased.cpp:258-263 | with a connected node the playhead goes back exactly one frame when past the start, and to exactly 0 otherwise; without one nothing happens |
| Playhead.NextFrame | app/widget/timebased/timebased.cpp:265-270 | with a connected node the playhead goes forward exactly one frame; without one nothing happens |
| Playhead.FrameStepsInverse | app/widget/timebased/timebased.cpp:258-270 | a step back undoes a step forward from any non-negative playhead, and a step forward undoes a step back from any playhead past the start |
| Playhead.StartIsFixed | app/widget/timebased/timebased.cpp:188-263 | once the playhead is at the start, "previous cut" does not move it and "previous frame" sets it to the start again |
| Playhead.NoNextCutAtEnd | app/widget/timebased/timebased.cpp:219-277 | at the end of a node whose tracks end by the node's end and whose in-points are ordered and all lie within their track's length, "next cut" does not move the playhead |
| Playhead.PrevFrameAtStart | app/widget/timebased/timebased.cpp:258-263 | stepping back at or before the start lands on the start |
| WorkAreas.SetPoint | app/widget/timebased/timebased.cpp:290-328 | no command without timeline points; otherwise the area is enabled, its range is ordered and holds the given time; the other point is kept when the area was enabled and it is still on its side of the time, and is otherwise replaced by its reset value |
| WorkAreas.ResetPoint | app/widget/timebased/timebased.cpp:330-345 | no command without points or with a disabled area; otherwise only the chosen point is replaced by its reset value before normalising, and the other point is kept |
| WorkAreas.ClearInOutPoints | app/widget/timebased/timebased.cpp:367-375 | with timeline points the area is disabled and its range is left as it was; without them no command is pushed |
| WorkAreas.ClearThenEdit | app/widget/timebased/timebased.cpp:290-375 | after clearing, resetting either point pushes no command, and setting a point ignores the kept range and uses the other point's reset value |
| WorkAreas.MarkInThenOut | app/widget/timebased/timebased.cpp:306-325 | setting the in-point at a and then the out-point at b >= a selects exactly [a, b], whatever the area held before, when a is not beyond the reset out-point |
| WorkAreas.MarkOutThenIn | app/widget/timebased/timebased.cpp:306-325 | setting the out-point at b and then the in-point at a <= b selects exactly [a, b], when b is not before the reset in-point |
| WorkAreas.SetPointIdempotent | app/widget/timebased/timebased.cpp:290-328 | setting the same point at the same time twice equals setting it once, when the other point's reset value lies on its own side of the time |
| WorkAreas.ResetPointIdempotent | app/widget/timebased/timebased.cpp:330-345 | resetting the same point twice equals resetting it once, when the reset value lies on its own side of the kept point |

## Left out

- The GPU texture cache (app/render/backend/opengl/opengltexturecache.h): only its class declaration is available. The behaviour of `Get`, `Relinquish`, `ParentKilled` and the destructor is not, and the class centres on a mutex and OpenGL contexts. Any lease or pool property would be invented.
- app/widget/viewer/viewerglwidget.cpp is not part of this model. It consists of OpenGL drawing, image decoding, colour-pipeline setup and Qt wiring.
- Zoom and scroll (`ScrollBarResized`, `UpdateMaximumScroll`, `CenterScrollOnPlayhead`, `ZoomIn`, `ZoomOut`, `SetScaleAndCenterOnPlayhead`, `resizeEvent`): floating-point arithmetic on widget geometry.
- `ConnectViewerNode`, `TimebaseChangedEvent`, `SetTime` and `SetTimeAndSignal`: Qt signal wiring. A moved playhead is modelled as the returned timestamp.
- `SetInAtPlayhead`, `SetOutAtPlayhead`, `ResetIn` and `ResetOut` are one-line delegations to `SetPoint` and `ResetPoint` with a fixed mode. The first two also convert the playhead with `Timecode::timestamp_to_time`, which is not shown.
- `SetMarker`: it shows an input dialog and adds to the marker list, neither of which is shown.
- `Timecode::time_to_timestamp` is not shown. Blocks, track lengths and the node length are given directly as timestamps, so its rounding is not modelled.
- The undo commands (`WorkareaSetEnabledCommand`, `WorkareaSetRangeCommand`, the undo stack) are not modelled. Only the work area that the pushed command installs is modelled.
- `kResetIn` and `kResetOut` are defined outside the shown code. They are parameters (`ResetPoints`).
- The default `TimeRange` constructor and the `in()`/`out()` accessors: the default value of `rational` is not shown, and the accessors are the datatype's fields.
- Playhead.NextFrame: requires the playhead to be below `INT64_MAX` when a node is connected. At `INT64_MAX`, Olive's C++ signed addition overflows, which is undefined behaviour in C++.
- Playhead.PrevFrame: the subtraction is exact. At `INT64_MIN` Olive's C++ `GetTime() - 1` overflows, whereas the model returns 0.

=== FILE: base.dfy ===
/** Shared vocabulary: an optional value and the 64-bit signed timestamps the
    timeline works with. */
module Base {

  /** `None` stands for "the operation sets no playhead and pushes no command". */
  datatype Option<+T> = None | Some(value: T)

  const Int64Min: int := -0x8000_0000_0000_0000
  const Int64Max: int := 0x7fff_ffff_ffff_ffff

  /** A timestamp as stored in an `int64_t`: a count of timebase units. */
  type Int64 = x: int | Int64Min <= x <= Int64Max

  function Max(a: int, b: int): (m: int)
    ensures m >= a && m >= b
    ensures m == a || m == b
  {
    if a < b then b else a
  }

  function Min(a: int, b: int): (m: int)
    ensures m <= a && m <= b
    ensures m == a || m == b
  {
    if b < a then b else a
  }
}

=== FILE: cuts.dfy ===
/** The cut-finding rules behind "go to previous cut" and "go to next cut".
    A track is its blocks in timeline order, each block reduced to the
    timestamps of its in-point and out-point, plus the timestamp of the
    track's length. Each rule is given twice: as functions that say which
    block the scan settles on, and as methods whose loops follow the scans
    block by block and track by track. */
module Cuts {
  import opened Base

  datatype Block = Block(inPoint: Int64, outPoint: Int64)

  datatype Track = Track(blocks: seq<Block>, length: Int64)

  /** Each of the first `n` blocks ends strictly before `t`. */
  predicate AllEndBefore(blocks: seq<Block>, n: nat, t: int)
    requires n <= |blocks|
  {
    forall i :: 0 <= i < n ==> blocks[i].outPoint < t
  }

  /** None of the first `n` blocks starts after `t`. */
  predicate NoneStartAfter(blocks: seq<Block>, n: nat, t: int)
    requires n <= |blocks|
  {
    forall i :: 0 <= i < n ==> blocks[i].inPoint <= t
  }

  // ---------------------------------------------------------------------
  // Previous cut

  /** How many leading blocks end strictly before `t`: the blocks the
      per-track scan visits before it stops. */
  function EndingBefore(blocks: seq<Block>, t: int): (k: nat)
    ensures k <= |blocks|
    ensures forall i :: 0 <= i < k ==> blocks[i].outPoint < t
    ensures k < |blocks| ==> blocks[k].outPoint >= t
  {
    if |blocks| == 0 || blocks[0].outPoint >= t then 0
    else 1 + EndingBefore(blocks[1..], t)
  }

  /** The previous cut one track offers: the out-point of the last block
      visited before the scan meets a block ending at or after `t`, or 0
      when the very first block already does. */
  function TrackPrevCut(track: Track, t: int): (c: Int64)
    ensures c == 0 || c < t
    ensures |track.blocks| == 0 || track.blocks[0].outPoint >= t ==> c == 0
    ensures |track.blocks| > 0 && track.blocks[0].outPoint < t ==>
              exists j :: 0 <= j < |track.blocks| && c == track.blocks[j].outPoint
                       && AllEndBefore(track.blocks, j + 1, t)
                       && (j + 1 == |track.blocks| || track.blocks[j + 1].outPoint >= t)
  {
    var k := EndingBefore(track.blocks, t);
    if k == 0 then 0 else track.blocks[k - 1].outPoint
  }

  /** The previous cut over all tracks: the largest per-track cut, never
      below 0. */
  function PrevCut(tracks: seq<Track>, t: int): (c: Int64)
    ensures c >= 0
    ensures forall i :: 0 <= i < |tracks| ==> TrackPrevCut(tracks[i], t) <= c
    ensures c == 0 || exists i :: 0 <= i < |tracks| && TrackPrevCut(tracks[i], t) == c
  {
    if |tracks| == 0 then 0
    else Max(PrevCut(tracks[..|tracks| - 1], t), TrackPrevCut(tracks[|tracks| - 1], t))
  }

  // ---------------------------------------------------------------------
  // Next cut

  /** Index of the first block starting strictly after `t`, or the number
      of blocks when there is none. */
  function FirstStartingAfter(blocks: seq<Block>, t: int): (k: nat)
    ensures k <= |blocks|
    ensures forall i :: 0 <= i < k ==> blocks[i].inPoint <= t
    ensures k < |blocks| ==> blocks[k].inPoint > t
  {
    if |blocks| == 0 || blocks[0].inPoint > t then 0
    else 1 + FirstStartingAfter(blocks[1..], t)
  }

  /** The next cut one track offers: the in-point of the first block that
      starts after `t`; failing that, the track length if it lies after `t`;
      failing that, the sentinel `Int64Max`. */
  function TrackNextCut(track: Track, t: int): (c: Int64)
    ensures c > t || c == Int64Max
    ensures (exists k :: 0 <= k < |track.blocks| && track.blocks[k].inPoint > t) ==>
              exists j :: 0 <= j < |track.blocks| && c == track.blocks[j].inPoint && c > t
                       && NoneStartAfter(track.blocks, j, t)
    ensures (forall i :: 0 <= i < |track.blocks| ==> track.blocks[i].inPoint <= t) ==>
              c == if track.length > t then track.length else Int64Max
  {
    var k := FirstStartingAfter(track.blocks, t);
    if k < |track.blocks| then track.blocks[k].inPoint
    else if track.length > t then track.length
    else Int64Max
  }

  /** The next cut over all tracks: the smallest per-track cut, with
      `Int64Max` standing for "no track offers one". */
  function NextCut(tracks: seq<Track>, t: int): (c: Int64)
    ensures forall i :: 0 <= i < |tracks| ==> c <= TrackNextCut(tracks[i], t)
    ensures c == Int64Max || exists i :: 0 <= i < |tracks| && TrackNextCut(tracks[i], t) == c
  {
    if |tracks| == 0 then Int64Max
    else Min(NextCut(tracks[..|tracks| - 1], t), TrackNextCut(tracks[|tracks| - 1], t))
  }

  // ---------------------------------------------------------------------
  // The scans as loops

  /** The inner loop of "go to previous cut": remember each out-point that
      is before `t`, stop at the first one that is not. */
  method ScanTrackPrevCut(track: Track, t: Int64) returns (cut: Int64)
    ensures cut == TrackPrevCut(track, t)
  {
    cut := 0;
    var j := 0;
    while j < |track.blocks|
      invariant j <= EndingBefore(track.blocks, t)
      invariant cut == if j == 0 then 0 else track.blocks[j - 1].outPoint
    {
      if track.blocks[j].outPoint < t {
        cut := track.blocks[j].outPoint;
        j := j + 1;
      } else {
        break;
      }
    }
  }

  /** The outer loop of "go to previous cut": the running maximum over the
      tracks visited so far, starting from 0. */
  method ScanPrevCut(tracks: seq<Track>, t: Int64) returns (closest: Int64)
    ensures closest == PrevCut(tracks, t)
  {
    closest := 0;
    var i := 0;
    while i < |tracks|
      invariant i <= |tracks|
      invariant closest == PrevCut(tracks[..i], t)
    {
      var c := ScanTrackPrevCut(tracks[i], t);
      assert tracks[..i + 1][..i] == tracks[..i];
      closest := Max(closest, c);
      i := i + 1;
    }
    assert tracks[..|tracks|] == tracks;
  }

  /** The inner loop of "go to next cut": start from the track length (or
      the sentinel when that is not after `t`) and take the first in-point
      after `t`, if any. */
  method ScanTrackNextCut(track: Track, t: Int64) returns (cut: Int64)
    ensures cut == TrackNextCut(track, t)
  {
    cut := track.length;
    if cut <= t {
      cut := Int64Max;
    }
    var j := 0;
    while j < |track.blocks|
      invariant j <= FirstStartingAfter(track.blocks, t)
      invariant cut == if track.length > t then track.length else Int64Max
    {
      if track.blocks[j].inPoint > t {
        cut := track.blocks[j].inPoint;
        break;
      }
      j := j + 1;
    }
  }

  /** The outer loop of "go to next cut": the running minimum over the
      tracks visited so far, starting from the sentinel. */
  method ScanNextCut(tracks: seq<Track>, t: Int64) returns (closest: Int64)
    ensures closest == NextCut(tracks, t)
  {
    closest := Int64Max;
    var i := 0;
    while i < |tracks|
      invariant i <= |tracks|
      invariant closest == NextCut(tracks[..i], t)
    {
      var c := ScanTrackNextCut(tracks[i], t);
      assert tracks[..i + 1][..i] == tracks[..i];
      closest := Min(closest, c);
      i := i + 1;
    }
    assert tracks[..|tracks|] == tracks;
  }

  // ---------------------------------------------------------------------
  // What the scans mean on a well-formed timeline

  /** Blocks on a track follow one another, so their out-points never
      decrease along the track. */
  predicate EndsOrdered(blocks: seq<Block>) {
    forall i, j :: 0 <= i < j < |blocks| ==> blocks[i].outPoint <= blocks[j].outPoint
  }

  /** In-points never decrease along the track and no block starts after
      the end of its track. */
  predicate StartsOrderedWithin(track: Track) {
    && (forall i, j :: 0 <= i < j < |track.blocks| ==> track.blocks[i].inPoint <= track.blocks[j].inPoint)
    && (forall i :: 0 <= i < |track.blocks| ==> track.blocks[i].inPoint <= track.length)
  }

  /** On ordered blocks, stopping at the first block that reaches `t` loses
      nothing: the track's cut is the latest out-point before `t`, and 0
      only when no block ends before `t`. */
  lemma TrackPrevCutIsLatestEnd(track: Track, t: int)
    requires EndsOrdered(track.blocks)
    ensures forall i :: 0 <= i < |track.blocks| && track.blocks[i].outPoint < t ==>
              track.blocks[i].outPoint <= TrackPrevCut(track, t)
    ensures (forall i :: 0 <= i < |track.blocks| ==> track.blocks[i].outPoint >= t) ==>
              TrackPrevCut(track, t) == 0
  {
    var k := EndingBefore(track.blocks, t);
    forall i | 0 <= i < |track.blocks| && track.blocks[i].outPoint < t
      ensures track.blocks[i].outPoint <= TrackPrevCut(track, t)
    {
      assert i < k;
    }
  }

  /** On tracks whose out-points are ordered, the previous cut is the latest
      block out-point before `t` on any track, or 0 when there is none or it
      is negative. */
  lemma PrevCutIsLatestEnd(tracks: seq<Track>, t: int)
    requires forall n :: 0 <= n < |tracks| ==> EndsOrdered(tracks[n].blocks)
    ensures forall n, i :: 0 <= n < |tracks| && 0 <= i < |tracks[n].blocks| && tracks[n].blocks[i].outPoint < t ==>
              tracks[n].blocks[i].outPoint <= PrevCut(tracks, t)
    ensures PrevCut(tracks, t) == 0
         || exists n, i :: 0 <= n < |tracks| && 0 <= i < |tracks[n].blocks|
                         && tracks[n].blocks[i].outPoint == PrevCut(tracks, t) < t
  {
    forall n | 0 <= n < |tracks| {
      TrackPrevCutIsLatestEnd(tracks[n], t);
    }
    var c := PrevCut(tracks, t);
    if c != 0 {
      var n :| 0 <= n < |tracks| && TrackPrevCut(tracks[n], t) == c;
      var i :| 0 <= i < |tracks[n].blocks| && tracks[n].blocks[i].outPoint == c;
    }
  }

  /** On an ordered track the next cut is the earliest in-point after `t`,
      or the track length when no block starts after `t`. */
  lemma TrackNextCutIsEarliestStart(track: Track, t: int)
    requires StartsOrderedWithin(track)
    ensures forall i :: 0 <= i < |track.blocks| && track.blocks[i].inPoint > t ==>
              TrackNextCut(track, t) <= track.blocks[i].inPoint
    ensures track.length > t ==> TrackNextCut(track, t) <= track.length
  {
    var k := FirstStartingAfter(track.blocks, t);
    forall i | 0 <= i < |track.blocks| && track.blocks[i].inPoint > t
      ensures TrackNextCut(track, t) <= track.blocks[i].inPoint
    {
      assert k <= i;
    }
  }

  /** On tracks whose in-points are ordered and all lie within the track's
      length, the next cut is the earliest block in-point or track
      length after `t`, over all tracks. */
  lemma NextCutIsEarliestStart(tracks: seq<Track>, t: int)
    requires forall n :: 0 <= n < |tracks| ==> StartsOrderedWithin(tracks[n])
    ensures forall n, i :: 0 <= n < |tracks| && 0 <= i < |tracks[n].blocks| && tracks[n].blocks[i].inPoint > t ==>
              NextCut(tracks, t) <= tracks[n].blocks[i].inPoint
    ensures forall n :: 0 <= n < |tracks| && tracks[n].length > t ==>
              NextCut(tracks, t) <= tracks[n].length
  {
    forall n | 0 <= n < |tracks| {
      TrackNextCutIsEarliestStart(tracks[n], t);
    }
  }
}

=== FILE: playhead.dfy ===
/** Moving the playhead of a time-based view. Each operation yields the
    timestamp the view sets the playhead to, or `None` when it sets none:
    no connected node, the playhead already at 0 for "previous cut", or no
    cut after the playhead for "next cut". Setting the playhead to where it
    already is still counts as setting it. */
module Playhead {
  import opened Base
  import opened Cuts

  /** The connected viewer node, reduced to what the playhead rules read:
      its tracks and the timestamp of its total length. */
  datatype Node = Node(tracks: seq<Track>, length: Int64)

  /** Jump back to the nearest cut: the latest per-track cut before the
      playhead, or the start when no track has one. */
  function GoToPrevCut(node: Option<Node>, t: Int64): (r: Option<Int64>)
    ensures r.None? <==> node.None? || t == 0
    ensures r.Some? ==> 0 <= r.value && (t > 0 ==> r.value < t)
    ensures r.Some? ==> forall i :: 0 <= i < |node.value.tracks| ==>
              TrackPrevCut(node.value.tracks[i], t) <= r.value
    ensures r.Some? && r.value != 0 ==>
              exists i :: 0 <= i < |node.value.tracks| && TrackPrevCut(node.value.tracks[i], t) == r.value
  {
    match node
    case None => None
    case Some(n) => if t == 0 then None else Some(PrevCut(n.tracks, t))
  }

  /** Jump forward to the nearest cut: the earliest per-track cut after the
      playhead; the playhead stays put when every track reports the
      sentinel. */
  function GoToNextCut(node: Option<Node>, t: Int64): (r: Option<Int64>)
    ensures node.None? ==> r.None?
    ensures node.Some? ==> (r.None? <==> forall i :: 0 <= i < |node.value.tracks| ==>
              TrackNextCut(node.value.tracks[i], t) == Int64Max)
    ensures r.Some? ==> t < r.value < Int64Max
    ensures r.Some? ==> forall i :: 0 <= i < |node.value.tracks| ==>
              r.value <= TrackNextCut(node.value.tracks[i], t)
    ensures r.Some? ==>
              exists i :: 0 <= i < |node.value.tracks| && TrackNextCut(node.value.tracks[i], t) == r.value
  {
    match node
    case None => None
    case Some(n) =>
      var closest := NextCut(n.tracks, t);
      if closest < Int64Max then Some(closest) else None
  }

  function GoToStart(node: Option<Node>): (r: Option<Int64>)
    ensures r.None? <==> node.None?
    ensures r.Some? ==> r.value == 0
  {
    if node.Some? then Some(0) else None
  }

  function GoToEnd(node: Option<Node>): (r: Option<Int64>)
    ensures r.None? <==> node.None?
    ensures r.Some? ==> r.value == node.value.length
  {
    match node
    case None => None
    case Some(n) => Some(n.length)
  }

  /** Step back one frame, never before the start. */
  function PrevFrame(node: Option<Node>, t: Int64): (r: Option<Int64>)
    ensures r.None? <==> node.None?
    ensures r.Some? && t >= 1 ==> r.value == t - 1
    ensures r.Some? && t <= 0 ==> r.value == 0
  {
    if node.Some? then Some(Max(0, t - 1)) else None
  }

  /** Step forward one frame. Stepping past the largest timestamp would
      overflow the signed 64-bit playhead, which Olive's C++ does not guard. */
  function NextFrame(node: Option<Node>, t: Int64): (r: Option<Int64>)
    requires node.Some? ==> t < Int64Max
    ensures r.None? <==> node.None?
    ensures r.Some? ==> r.value - t == 1
  {
    if node.Some? then Some(t + 1) else None
  }

  /** A step back undoes a step forward from any non-negative playhead, and
      a step forward undoes a step back from any playhead past the start. */
  lemma FrameStepsInverse(node: Option<Node>, t: Int64)
    requires node.Some?
    ensures 0 <= t < Int64Max ==> PrevFrame(node, NextFrame(node, t).value) == Some(t)
    ensures t >= 1 ==> NextFrame(node, PrevFrame(node, t).value) == Some(t)
  {
  }

  /** Stepping back from the start, or from before it, lands on the start. */
  lemma PrevFrameAtStart(node: Option<Node>, t: Int64)
    requires node.Some? && t <= 0
    ensures PrevFrame(node, t) == Some(0)
  {
  }

  /** Once at the start, neither "previous cut" nor "previous frame" moves
      the playhead anywhere else. */
  lemma StartIsFixed(node: Option<Node>)
    requires node.Some?
    ensures GoToPrevCut(node, GoToStart(node).value) == None
    ensures PrevFrame(node, GoToStart(node).value) == GoToStart(node)
  {
  }

  /** At the end of a well-formed node, whose tracks all end by the node's
      end, there is no next cut to go to. */
  lemma NoNextCutAtEnd(node: Option<Node>)
    requires node.Some?
    requires forall n :: 0 <= n < |node.value.tracks| ==>
               StartsOrderedWithin(node.value.tracks[n]) && node.value.tracks[n].length <= node.value.length
    ensures GoToNextCut(node, GoToEnd(node).value) == None
  {
  }

  /** On a well-formed timeline, "previous cut" lands on the latest block
      end before the playhead over all tracks, or on the start. */
  lemma GoToPrevCutIsLatestEnd(node: Option<Node>, t: Int64)
    requires node.Some? && t != 0
    requires forall n :: 0 <= n < |node.value.tracks| ==> EndsOrdered(node.value.tracks[n].blocks)
    ensures var tracks := node.value.tracks;
            forall n, i :: 0 <= n < |tracks| && 0 <= i < |tracks[n].blocks| && tracks[n].blocks[i].outPoint < t ==>
              tracks[n].blocks[i].outPoint <= GoToPrevCut(node, t).value
  {
    PrevCutIsLatestEnd(node.value.tracks, t);
  }

  /** On a well-formed timeline, "next cut" never skips a block start or a
      track end that lies after the playhead. */
  lemma GoToNextCutIsEarliestStart(node: Option<Node>, t: Int64)
    requires node.Some?
    requires forall n :: 0 <= n < |node.value.tracks| ==> StartsOrderedWithin(node.value.tracks[n])
    ensures var tracks := node.value.tracks;
            GoToNextCut(node, t).Some? ==>
            && (forall n, i :: 0 <= n < |tracks| && 0 <= i < |tracks[n].blocks| && tracks[n].blocks[i].inPoint > t ==>
                  GoToNextCut(node, t).value <= tracks[n].blocks[i].inPoint)
            && (forall n :: 0 <= n < |tracks| && tracks[n].length > t ==>
                  GoToNextCut(node, t).value <= tracks[n].length)
  {
    NextCutIsEarliestStart(node.value.tracks, t);
  }

  /** The "previous cut" and "next cut" loops compute what the rules above
      describe. */
  method ScanGoToPrevCut(node: Option<Node>, t: Int64) returns (r: Option<Int64>)
    ensures r == GoToPrevCut(node, t)
  {
    if node.None? || t == 0 {
      return None;
    }
    var closest := ScanPrevCut(node.value.tracks, t);
    r := Some(closest);
  }

  method ScanGoToNextCut(node: Option<Node>, t: Int64) returns (r: Option<Int64>)
    ensures r == GoToNextCut(node, t)
  {
    if node.None? {
      return None;
    }
    var closest := ScanNextCut(node.value.tracks, t);
    if closest < Int64Max {
      r := Some(closest);
    } else {
      r := None;
    }
  }
}

=== FILE: timerange.dfy ===
/** A span of time given by an in-point and an out-point. Every operation that
    builds or changes a range finishes by normalising it, so the stored
    in-point never comes after the stored out-point. Rational times are
    modelled as exact `real`s; only their ordering is used. */
module TimeRanges {

  datatype TimeRange = TimeRange(inPoint: real, outPoint: real)

  /** The class invariant every public operation re-establishes. */
  predicate Valid(r: TimeRange) {
    r.inPoint <= r.outPoint
  }

  /** The two end points of a range, as a bag: normalising reorders them but
      never loses or invents one. */
  function Ends(r: TimeRange): multiset<real> {
    multiset{r.inPoint, r.outPoint}
  }

  /** Swap the end points when the out-point is earlier than the in-point. */
  function Normalize(r: TimeRange): (n: TimeRange)
    ensures Valid(n)
    ensures Ends(n) == Ends(r)
    ensures Valid(r) ==> n == r
  {
    if r.outPoint < r.inPoint then TimeRange(r.outPoint, r.inPoint) else r
  }

  /** The two-argument constructor: store both points, then normalise. */
  function Make(a: real, b: real): (r: TimeRange)
    ensures Valid(r)
    ensures Ends(r) == multiset{a, b}
    ensures r.inPoint <= a && r.inPoint <= b
    ensures r.outPoint >= a && r.outPoint >= b
  {
    Normalize(TimeRange(a, b))
  }

  /** Replace the in-point, then normalise. */
  function SetIn(r: TimeRange, x: real): (s: TimeRange)
    ensures Valid(s)
    ensures Ends(s) == multiset{x, r.outPoint}
    ensures x <= r.outPoint ==> s.inPoint == x && s.outPoint == r.outPoint
  {
    Normalize(r.(inPoint := x))
  }

  /** Replace the out-point, then normalise. */
  function SetOut(r: TimeRange, x: real): (s: TimeRange)
    ensures Valid(s)
    ensures Ends(s) == multiset{r.inPoint, x}
    ensures r.inPoint <= x ==> s.inPoint == r.inPoint && s.outPoint == x
  {
    Normalize(r.(outPoint := x))
  }

  /** Replace both points, then normalise; the old range plays no part. */
  function SetRange(r: TimeRange, a: real, b: real): (s: TimeRange)
    ensures s == Make(a, b)
  {
    Normalize(TimeRange(a, b))
  }

  /** A valid range is determined by its bag of end points: there is exactly
      one sorted arrangement of two values. */
  lemma SortedPairUnique(p: TimeRange, q: TimeRange)
    requires Valid(p) && Valid(q)
    requires Ends(p) == Ends(q)
    ensures p == q
  {
  }

  /** Normalising twice is the same as normalising once. */
  lemma NormalizeIdempotent(r: TimeRange)
    ensures Normalize(Normalize(r)) == Normalize(r)
  {
  }

  /** The constructor gives the ordered pair (min, max) of its arguments,
      whichever order they are passed in. */
  lemma MakeSymmetric(a: real, b: real)
    ensures Make(a, b) == Make(b, a)
  {
    SortedPairUnique(Make(a, b), Make(b, a));
  }

  /** Setting a point to its current value changes nothing on a valid range. */
  lemma SetUnchangedPoint(r: TimeRange)
    requires Valid(r)
    ensures SetIn(r, r.inPoint) == r
    ensures SetOut(r, r.outPoint) == r
  {
  }

  /** Both setters are the constructor applied to the new point and the kept
      old one. */
  lemma SettersAreConstructors(r: TimeRange, x: real)
    ensures SetIn(r, x) == Make(x, r.outPoint)
    ensures SetOut(r, x) == Make(r.inPoint, x)
  {
  }
}

=== FILE: workarea.dfy ===
/** Editing the work area: the in/out range of a sequence together with a
    flag saying whether that range is in use. Each operation yields the work
    area the pushed undo command installs, or `None` when it pushes none. */
module WorkAreas {
  import opened Base
  import opened TimeRanges

  datatype MovementMode = TrimIn | TrimOut

  datatype WorkArea = WorkArea(enabled: bool, range: TimeRange)

  /** The in- and out-points a reset falls back to. Their values belong to
      the work-area class and are treated as given. */
  datatype ResetPoints = ResetPoints(resetIn: real, resetOut: real)

  /** Set the in- or out-point at `time`, enabling the work area. The other
      point is kept when the area was enabled and it still lies on the right
      side of `time`; otherwise it falls back to its reset value. */
  function SetPoint(points: Option<WorkArea>, m: MovementMode, time: real, d: ResetPoints): (r: Option<WorkArea>)
    ensures r.None? <==> points.None?
    ensures r.Some? ==> r.value.enabled && Valid(r.value.range)
    ensures r.Some? ==> time in Ends(r.value.range)
    ensures r.Some? && m == TrimIn ==>
              var w := points.value;
              if w.enabled && time <= w.range.outPoint
              then r.value.range == TimeRange(time, w.range.outPoint)
              else Ends(r.value.range) == multiset{time, d.resetOut}
    ensures r.Some? && m == TrimOut ==>
              var w := points.value;
              if w.enabled && w.range.inPoint <= time
              then r.value.range == TimeRange(w.range.inPoint, time)
              else Ends(r.value.range) == multiset{d.resetIn, time}
  {
    match points
    case None => None
    case Some(w) =>
      if m == TrimIn then
        var outPoint := if !w.enabled || w.range.outPoint < time then d.resetOut else w.range.outPoint;
        Some(WorkArea(true, Make(time, outPoint)))
      else
        var inPoint := if !w.enabled || w.range.inPoint > time then d.resetIn else w.range.inPoint;
        Some(WorkArea(true, Make(inPoint, time)))
  }

  /** Put the in- or out-point of an enabled work area back to its reset
      value, keeping the other point. */
  function ResetPoint(points: Option<WorkArea>, m: MovementMode, d: ResetPoints): (r: Option<WorkArea>)
    ensures r.None? <==> points.None? || !points.value.enabled
    ensures r.Some? ==> r.value.enabled && Valid(r.value.range)
    ensures r.Some? && m == TrimIn ==>
              Ends(r.value.range) == multiset{d.resetIn, points.value.range.outPoint}
    ensures r.Some? && m == TrimIn && d.resetIn <= points.value.range.outPoint ==>
              r.value.range == TimeRange(d.resetIn, points.value.range.outPoint)
    ensures r.Some? && m == TrimOut ==>
              Ends(r.value.range) == multiset{points.value.range.inPoint, d.resetOut}
    ensures r.Some? && m == TrimOut && points.value.range.inPoint <= d.resetOut ==>
              r.value.range == TimeRange(points.value.range.inPoint, d.resetOut)
  {
    match points
    case None => None
    case Some(w) =>
      if !w.enabled then None
      else if m == TrimIn then Some(w.(range := SetIn(w.range, d.resetIn)))
      else Some(w.(range := SetOut(w.range, d.resetOut)))
  }

  /** Disable the work area; its range is left as it was. */
  function ClearInOutPoints(points: Option<WorkArea>): (r: Option<WorkArea>)
    ensures r.None? <==> points.None?
    ensures r.Some? ==> !r.value.enabled && r.value.range == points.value.range
  {
    match points
    case None => None
    case Some(w) => Some(w.(enabled := false))
  }

  /** Marking the in-point at `a` and then the out-point at `b` selects
      exactly [a, b], whatever the work area held before, as long as `a`
      does not lie beyond the reset out-point. */
  lemma MarkInThenOut(points: Option<WorkArea>, a: real, b: real, d: ResetPoints)
    requires points.Some?
    requires a <= b && a <= d.resetOut
    ensures SetPoint(SetPoint(points, TrimIn, a, d), TrimOut, b, d) == Some(WorkArea(true, TimeRange(a, b)))
  {
    var first := SetPoint(points, TrimIn, a, d);
    assert first.value.range.inPoint == a by {
      if !(points.value.enabled && a <= points.value.range.outPoint) {
        SortedPairUnique(first.value.range, TimeRange(a, d.resetOut));
      }
    }
  }

  /** Marking the out-point at `b` and then the in-point at `a` selects
      exactly [a, b], as long as `b` does not lie before the reset in-point. */
  lemma MarkOutThenIn(points: Option<WorkArea>, a: real, b: real, d: ResetPoints)
    requires points.Some?
    requires a <= b && d.resetIn <= b
    ensures SetPoint(SetPoint(points, TrimOut, b, d), TrimIn, a, d) == Some(WorkArea(true, TimeRange(a, b)))
  {
    var first := SetPoint(points, TrimOut, b, d);
    assert first.value.range.outPoint == b by {
      if !(points.value.enabled && points.value.range.inPoint <= b) {
        SortedPairUnique(first.value.range, TimeRange(d.resetIn, b));
      }
    }
  }

  /** Setting the same point twice at the same time is the same as setting
      it once, provided the reset value of the other point lies on its own
      side of `time`. */
  lemma SetPointIdempotent(points: Option<WorkArea>, m: MovementMode, time: real, d: ResetPoints)
    requires m == TrimIn ==> time <= d.resetOut
    requires m == TrimOut ==> d.resetIn <= time
    ensures SetPoint(SetPoint(points, m, time, d), m, time, d) == SetPoint(points, m, time, d)
  {
  }

  /** Resetting a point twice is the same as resetting it once, provided
      the reset value lies on its own side of the other point. */
  lemma ResetPointIdempotent(points: Option<WorkArea>, m: MovementMode, d: ResetPoints)
    requires points.Some? && points.value.enabled
    requires m == TrimIn ==> d.resetIn <= points.value.range.outPoint
    requires m == TrimOut ==> points.value.range.inPoint <= d.resetOut
    ensures ResetPoint(ResetPoint(points, m, d), m, d) == ResetPoint(points, m, d)
  {
  }

  /** Clearing keeps the range, but the cleared range plays no further part:
      setting a point afterwards falls back to the reset value for the other
      point, and resetting a point does nothing. */
  lemma ClearThenEdit(points: Option<WorkArea>, time: real, d: ResetPoints)
    requires points.Some?
    ensures ResetPoint(ClearInOutPoints(points), TrimIn, d) == None
    ensures ResetPoint(ClearInOutPoints(points), TrimOut, d) == None
    ensures SetPoint(ClearInOutPoints(points), TrimIn, time, d) == Some(WorkArea(true, Make(time, d.resetOut)))
    ensures SetPoint(ClearInOutPoints(points), TrimOut, time, d) == Some(WorkArea(true, Make(d.resetIn, time)))
  {
  }
}
